=== FILE: README.md ===
# Request-decision core of the Foundation Models HTTP server

The server exposes Apple's on-device language model over HTTP. It has
three endpoints. `POST /inference` turns a prompt into generated text.
`GET /health` is a liveness probe. `GET /status` reports whether the
model is available. This project models in Dafny the logic that decides
what each request gets back:

- **Availability oracle** (`Availability`). `checkAvailability` and
  `getAvailabilityMessage` map the model's availability to a yes/no answer
  and to a fixed diagnostic text.
- **Generation** (`InferenceService`). `generateResponse` refuses with a 503
  when the model is not available. Otherwise it opens a fresh
  `LanguageModelSession`, sends it the prompt, and returns the backend's text
  or rethrows the backend's error. The request lifecycle is also written as a
  state machine, RECEIVED → AVAILABILITY_CHECKED → SESSION_CREATED →
  BACKEND_INVOKED → SUCCEEDED | FAILED, or AVAILABILITY_CHECKED → REFUSED.
  A lemma proves that the machine and the function agree.
- **Error translation** (`ErrorMiddleware`). `JSONErrorMiddleware` passes
  responses through unchanged. It reports an `AbortError` with that error's
  own status and reason. Every other error becomes a 500 with the fixed text
  "Internal server error".
- **Routes** (`Routes`). The three route closures, each wrapped in the
  middleware. This module holds the end-to-end guarantees about status codes,
  body shapes, and agreement between `/status` and `/inference`.
- **Serving over time** (`Serving`). A run of requests is handled strictly
  one after another against one service. This is a modelling choice, not a
  promise of the source. `InferenceService` is an actor, and Swift actors are
  reentrant at every `await`. While one `generateResponse` waits on
  `session.respond(to:)` (Sources/App/main.swift:85), the actor can start
  another request, so two backend calls can be in flight at once. The
  properties proved here still hold under that interleaving. Requests share
  nothing but the session allocation, and there is no suspension point
  between opening a session (line 82) and starting the backend call on it
  (line 85). Three properties are proved. Sessions are never reused. Each
  backend call runs on the session opened just before it. Each response
  equals what that request would get on its own.

The model stands in for things outside the server as follows. The model's
availability is a value of the datatype `ModelAvailability`. `OtherReason`
covers every unavailable reason the server does not name. `Future` covers
the `@unknown default` arm. The backend's `respond(to:)` is a total
function from prompt to `Outcome<string>`, meaning a text or any thrown
error. Decoding the JSON request body is a parameter of the `/inference`
route: either the decoded prompt or the error the decoder throws. Response
bodies are JSON objects with string values (`map<string, string>`).
Sessions are numbered by a counter in the service state, so a fresh session
is one whose number has never been used.

## Model

| member | source | states |
|---|---|---|
| Availability.CheckAvailability | Sources/App/main.swift:49-56 | Generation is admitted exactly when the message is the "Model is available" text, so the yes/no answer and the diagnostic never disagree; every unavailable reason and every unrecognised state refuse |
| Availability.AvailabilityMessage | Sources/App/main.swift:58-73 | The diagnostic is total and never empty; the unrecognised state, and only it, gets "Model availability unknown"; the unnamed unavailable reason, and only it, gets "Model is unavailable for unknown reason" |
| Availability.Diagnose | Sources/App/main.swift:58-73 | Inverse of the diagnostic: whatever state it reads a text back into has exactly that text as its message |
| Availability.MessageRoundTrip | Sources/App/main.swift:58-73 | Reading back any state's message recovers that state, so the six texts identify the six states |
| Availability.MessageInjective | Sources/App/main.swift:58-73 | Two states have the same message if and only if they are the same state |
| ErrorMiddleware.Respond | Sources/App/main.swift:21-36 | A returned response passes through unchanged; any thrown error yields a body with only the "error" field; an abort keeps its status and its reason; any other error gives 500 with "Internal server error" |
| ErrorMiddleware.OtherFailuresIndistinguishable | Sources/App/main.swift:30-34 | Non-leakage: the response to a non-abort error is the same whatever that error was |
| InferenceService.GenerateResponse | Sources/App/main.swift:75-89 | If the oracle refuses, the call throws a 503 with the oracle's message for the same state, leaves the service unchanged, and opens no session and calls no backend. Otherwise it opens exactly one new session and sends the prompt unchanged on that session. The backend's text or error becomes the outcome unchanged |
| InferenceService.GenerateResponseAsWritten | Sources/App/main.swift:75-89 | The source's version with two reads of the availability: the guard decides whether to refuse, and the second read supplies the 503 reason. When the guard admits, the next session is opened and the backend is called on it with the prompt, the counter moves on by one, and the backend's result is returned unchanged; the second read plays no part |
| InferenceService.AsWrittenAgreesWhenStable | Sources/App/main.swift:77-78 | When both reads observe the same state, the two-read version equals the one-read model |
| InferenceService.AsWrittenRefusesWithAvailableMessage | Sources/App/main.swift:77-78 | If the model becomes ready between the two reads, the request is refused with a 503 whose reason is "Model is available" |
| InferenceService.RefusalNamesUnavailableState | Sources/App/main.swift:77-78 | In the one-read model, a refusal's reason is never "Model is available" and always reads back to a state that is in fact unavailable |
| InferenceService.Advance | Sources/App/main.swift:75-89 | Each lifecycle step moves strictly closer to a terminal phase. REFUSED is reached only from AVAILABILITY_CHECKED with a refusing oracle, and SESSION_CREATED only with an admitting one |
| InferenceService.Lifecycle | Sources/App/main.swift:75-89 | From any phase the machine reaches a terminal phase within the rank bound, and every step of the path is a machine transition |
| InferenceService.LifecycleUnfold | Sources/App/main.swift:75-89 | A non-terminal phase is followed by the run from its successor |
| InferenceService.RunFromBackend | Sources/App/main.swift:85 | From BACKEND_INVOKED the machine takes one step to SUCCEEDED or FAILED |
| InferenceService.RunFromSession | Sources/App/main.swift:82-88 | From SESSION_CREATED the backend is invoked next, and then the run ends |
| InferenceService.RunFromCheckedWhenAvailable | Sources/App/main.swift:77-88 | With an admitting oracle, AVAILABILITY_CHECKED leads through SESSION_CREATED and BACKEND_INVOKED to the end |
| InferenceService.LifecycleWhenAvailable | Sources/App/main.swift:75-89 | With an admitting oracle, the full run is RECEIVED, AVAILABILITY_CHECKED, SESSION_CREATED, BACKEND_INVOKED, then the terminal phase |
| InferenceService.LifecycleWhenUnavailable | Sources/App/main.swift:77-79 | With a refusing oracle, the run is RECEIVED, AVAILABILITY_CHECKED, REFUSED carrying the oracle's message |
| InferenceService.LifecycleAgrees | Sources/App/main.swift:75-89 | `GenerateResponse` ends where the lifecycle ends. It opens a session exactly when the machine passes SESSION_CREATED, and it calls the backend exactly when the machine passes BACKEND_INVOKED |
| Routes.BoolText | Sources/App/main.swift:130 | The rendering of a boolean is "true" or "false", and "true" exactly for true |
| Routes.InferenceRoute | Sources/App/main.swift:114-118 | A body that fails to decode throws before the service is reached, with no session and no backend call. A decoded prompt goes to generation unchanged; its text comes back as a 200 `{"response": text}`, and its error is rethrown unchanged |
| Routes.HealthRoute | Sources/App/main.swift:121-123 | `/health` takes nothing from the request or the service, never throws, and answers 200 with the single field "status" set to "ok" |
| Routes.StatusRoute | Sources/App/main.swift:126-133 | `/status` never throws and answers 200 with exactly "available" and "message". "available" is "true" exactly when the oracle admits, "message" is the oracle's message, and "true" appears exactly alongside "Model is available" |
| Routes.StatusRouteAsWritten | Sources/App/main.swift:126-133 | The source's version with two reads: the flag is `String(isAvailable)` of the first read, "true" or "false", and the message follows the second |
| Routes.StatusAsWrittenCanContradictItself | Sources/App/main.swift:127-128 | With the two reads, `/status` can report "false" together with "Model is available" |
| Routes.Route | Sources/App/main.swift:114-126 | Dispatch to the three closures: `/health` gets exactly the `/health` closure's answer, `/status` the `/status` closure's, and `/inference` the `/inference` closure's. `/health` and `/status` never throw and never touch the service or the backend. `/status` answers from the oracle alone, and only `/inference` reaches generation |
| Routes.Endpoint | Sources/App/main.swift:108-133 | Every response, on any route and on any path, has one of the four body shapes the routes send. Only a decoded `/inference` request touches the service or the backend |
| Routes.InferenceEndToEnd | Sources/App/main.swift:114-118 | Through the middleware, `/inference` returns one of four things. Unavailable: 503 with the oracle's message and no backend contact. Backend text: 200 with that text. Backend abort: its own status and reason. Any other backend error: 500 with the fixed text |
| Routes.InferenceStatusCodes | Sources/App/main.swift:114-118 | If the backend throws no abort of its own, `/inference` answers only 200, 500 or 503. It answers 503 exactly when the oracle refuses, and 200 exactly when the model is available and the backend answers |
| Routes.DecodeFailureNeverGenerates | Sources/App/main.swift:115-116 | A body that fails to decode is answered from the decoder's error alone; the service and the backend are untouched |
| Routes.StatusAgreesWithInference | Sources/App/main.swift:126-132 | For the same state: when unavailable, `/inference` is a 503 whose reason equals the `/status` message, and `/status` says "false"; when available, `/status` says "true" |
| Routes.HealthIgnoresState | Sources/App/main.swift:121-123 | `/health` answers 200 `{"status": "ok"}` whatever the service, availability and backend are |
| Routes.WorkedCases | Sources/App/main.swift:114-133 | Worked cases: "Hello" answered "Hi there!" gives 200; ModelNotReady gives a 503 and a `/status` body with the download message; an internal backend error gives 500 with the fixed text |
| Serving.ServeInOrder | Sources/App/main.swift:41-89 | Handling requests in arrival order gives one response per request. Each response equals what that request gets alone. Sessions opened in the run are fresh and never repeated, and every backend call uses the session opened just before it. Conversely, every session opened is used by the backend call that immediately follows it |
| Serving.EndpointStep | Sources/App/main.swift:81-85 | One request either leaves the backend untouched or opens the next session and calls the backend on it. Its response does not depend on the service state |
| Serving.SessionsMatchAdmittedRequests | Sources/App/main.swift:77-82 | A run opens exactly as many sessions as it has decoded `/inference` requests that found the model available |

## Left out

- Vapor routing, `Application` bootstrap, logging and shutdown (Sources/App/main.swift:94-146): runtime plumbing. Only the composition of the three closures with the middleware is modelled.
- The 1 MB body limit (Sources/App/main.swift:105) and JSON decoding of `InferenceRequest` (Sources/App/main.swift:115): the framework enforces both. The decoder's result is a parameter of the `/inference` route.
- Concurrency of the `actor` (Sources/App/main.swift:41): the service is sequential, and requests are handled one at a time in arrival order.
- `SystemLanguageModel` and `LanguageModelSession.respond` (Sources/App/main.swift:42-46, 82-85) are foreign calls. Availability is a parameter value and the backend is an uninterpreted function. In particular, whether Foundation Models' generation errors conform to Vapor's `AbortError` is not part of this model: all backend errors are allowed, and `Routes.InferenceStatusCodes` assumes the backend throws no abort.
- JSON text encoding of bodies and content-type headers are left out. Bodies are string-valued maps, because every body the server sends has that shape. A failure of `response.content.encode` inside the middleware (Sources/App/main.swift:28, 33) is not modelled: encoding a one-field string struct cannot fail in practice.
- Routes.InferenceStatusCodes: assumes that the backend throws no abort of its own. Without that assumption a backend abort could carry any status; `Routes.InferenceEndToEnd` covers that case with no assumption.
- Serving.ServeInOrder: handles requests strictly one after another, by choice. The source's actor is reentrant at the `await` on Sources/App/main.swift:85, so overlapping generations are possible there, and that interleaving is not modelled. The source therefore does not enforce a rule of at most one generation in flight, and the model does not claim one.
- Package.swift: build configuration only.

## Findings

| source | as written | input that shows it | evidently intended | confidence | as-written member | corrected member |
|---|---|---|---|---|---|---|
| Sources/App/main.swift:77-78 | The guard and the 503 reason read `model.availability` separately | The model finishes downloading between the two reads: first read `.unavailable(.modelNotReady)`, second read `.available`. The 503 reason is then "Model is available" | Read the state once, so the refusal names the state that caused it | low, not executed; needs a state change inside a very short window | InferenceService.AsWrittenRefusesWithAvailableMessage | InferenceService.RefusalNamesUnavailableState |
| Sources/App/main.swift:127-128 | `/status` takes its flag and its message from two separate reads | First read `.unavailable(.modelNotReady)`, second read `.available`. `/status` then answers `{"available": "false", "message": "Model is available"}` | Read the state once, so the flag and the message describe the same state | low, not executed; needs a state change inside a very short window | Routes.StatusAsWrittenCanContradictItself | Routes.StatusRoute |

The rest of the model uses the one-read members `InferenceService.GenerateResponse` and `Routes.StatusRoute`. `InferenceService.AsWrittenAgreesWhenStable` proves that the one-read and two-read versions of generation coincide whenever the state does not change between the reads.

=== FILE: availability.dfy ===
/** The availability oracle of `InferenceService`: the model's readiness state,
    the yes/no answer `checkAvailability` derives from it, and the fixed
    diagnostic text `getAvailabilityMessage` derives from it. */
module Availability {

  /** Why the system language model is unavailable. `OtherReason` stands for
      every reason the server does not name (the plain `.unavailable` arm). */
  datatype UnavailableReason =
    | DeviceNotEligible
    | AppleIntelligenceNotEnabled
    | ModelNotReady
    | OtherReason

  /** The model's availability as reported by the system. `Future` stands for
      any state added after the server was written (the `@unknown default` arm). */
  datatype ModelAvailability =
    | Available
    | Unavailable(reason: UnavailableReason)
    | Future

  datatype Option<+T> = None | Some(value: T)

  const AvailableMessage := "Model is available"
  const DeviceNotEligibleMessage := "Device is not eligible for Apple Intelligence"
  const NotEnabledMessage := "Apple Intelligence is not enabled in Settings"
  const NotReadyMessage := "Model is downloading or not ready yet"
  const UnknownReasonMessage := "Model is unavailable for unknown reason"
  const UnknownStateMessage := "Model availability unknown"

  /** `checkAvailability`: only the available state admits generation; every
      unavailable reason and every unrecognised state refuse. The answer
      agrees with the diagnostic text: it is yes exactly when the message
      is the "available" one. */
  function CheckAvailability(a: ModelAvailability): (ok: bool)
    ensures ok <==> a == Available
    ensures ok <==> AvailabilityMessage(a) == AvailableMessage
  {
    match a
    case Available => true
    case _ => false
  }

  /** `getAvailabilityMessage`: a total map from state to text. The text is
      never empty, and an unrecognised state gets its own generic text
      rather than one of the specific diagnoses. */
  function AvailabilityMessage(a: ModelAvailability): (m: string)
    ensures m != []
    ensures a.Future? <==> m == UnknownStateMessage
    ensures a == Unavailable(OtherReason) <==> m == UnknownReasonMessage
  {
    match a
    case Available => AvailableMessage
    case Unavailable(DeviceNotEligible) => DeviceNotEligibleMessage
    case Unavailable(AppleIntelligenceNotEnabled) => NotEnabledMessage
    case Unavailable(ModelNotReady) => NotReadyMessage
    case Unavailable(_) => UnknownReasonMessage
    case Future => UnknownStateMessage
  }

  /** Reads a diagnostic text back into the state it describes; `None` for
      a text the oracle never produces. This is the inverse of
      `AvailabilityMessage`. */
  function Diagnose(m: string): (r: Option<ModelAvailability>)
    ensures r.Some? ==> AvailabilityMessage(r.value) == m
  {
    if m == AvailableMessage then Some(Available)
    else if m == DeviceNotEligibleMessage then Some(Unavailable(DeviceNotEligible))
    else if m == NotEnabledMessage then Some(Unavailable(AppleIntelligenceNotEnabled))
    else if m == NotReadyMessage then Some(Unavailable(ModelNotReady))
    else if m == UnknownReasonMessage then Some(Unavailable(OtherReason))
    else if m == UnknownStateMessage then Some(Future)
    else None
  }

  /** Every state can be recovered from its message: the six texts are
      pairwise distinct, so a client reading `/status` or a 503 reason
      learns the exact state the oracle saw. */
  lemma MessageRoundTrip(a: ModelAvailability)
    ensures Diagnose(AvailabilityMessage(a)) == Some(a)
  {
  }

  /** Consequently two states share a message only when they are the same state. */
  lemma MessageInjective(a: ModelAvailability, b: ModelAvailability)
    ensures AvailabilityMessage(a) == AvailabilityMessage(b) <==> a == b
  {
    MessageRoundTrip(a);
    MessageRoundTrip(b);
  }
}

=== FILE: error_middleware.dfy ===
/** `JSONErrorMiddleware`: wraps every route and turns whatever the route
    throws into a JSON error envelope `{"error": ...}`. */
module ErrorMiddleware {
  import opened Http

  const ErrorKey := "error"
  const InternalErrorMessage := "Internal server error"

  /** The envelope every failure is reported in. */
  function ErrorEnvelope(status: nat, message: string): Response
  {
    Response(status, map[ErrorKey := message])
  }

  /** True of the one shape a failure may take on the wire. */
  predicate IsErrorEnvelope(r: Response)
  {
    r.body.Keys == {ErrorKey}
  }

  /** `respond(to:chainingTo:)`: a response the route produced passes through
      untouched; a thrown abort is reported with its own status and reason;
      any other error becomes a 500 with a fixed text, so nothing about the
      underlying error reaches the client. */
  function Respond(outcome: Outcome<Response>): (r: Response)
    ensures outcome.Returned? ==> r == outcome.value
    ensures outcome.Threw? ==> IsErrorEnvelope(r)
    ensures outcome.Threw? && outcome.failure.Abort? ==>
              r.status == outcome.failure.status && r.body[ErrorKey] == outcome.failure.reason
    ensures outcome.Threw? && outcome.failure.Other? ==>
              r.status == InternalServerError && r.body[ErrorKey] == InternalErrorMessage
  {
    match outcome
    case Returned(response) => response
    case Threw(Abort(status, reason)) => ErrorEnvelope(status, reason)
    case Threw(Other(_)) => ErrorEnvelope(InternalServerError, InternalErrorMessage)
  }

  /** Non-leakage: the response to an unexpected error is the same whatever
      the error was. */
  lemma OtherFailuresIndistinguishable(d1: string, d2: string)
    ensures Respond(Threw(Other(d1))) == Respond(Threw(Other(d2)))
  {
  }
}

=== FILE: http.dfy ===
/** The HTTP vocabulary shared by the routes and the error middleware:
    status codes, flat JSON object bodies, responses, and what a throwing
    Swift handler can hand back to its caller. */
module Http {

  /** The status codes this server produces, by their numeric code. */
  const Ok: nat := 200
  const InternalServerError: nat := 500
  const ServiceUnavailable: nat := 503

  /** Every body this server sends is a JSON object whose values are strings:
      `{"response": ...}`, `{"error": ...}`, `{"status": ...}` or
      `{"available": ..., "message": ...}`. Field order carries no meaning. */
  type JsonObject = map<string, string>

  datatype Response = Response(status: nat, body: JsonObject)

  /** An error thrown inside request handling, as the middleware sees it:
      an `AbortError` carries the status and reason it wants the client to
      see; any other error is opaque and carries only an internal detail. */
  datatype Failure =
    | Abort(status: nat, reason: string)
    | Other(detail: string)

  /** The result of a Swift `async throws` call: a value or a thrown error. */
  datatype Outcome<+T> = Returned(value: T) | Threw(failure: Failure)
}

=== FILE: inference_service.dfy ===
/** `InferenceService.generateResponse`: consult the availability oracle,
    refuse with a 503 when the model is not available, otherwise open a
    fresh session, hand the prompt to the backend and return what it
    returns or throw what it throws. */
module InferenceService {
  import opened Http
  import opened Availability

  /** The service's own state. The source allocates a new
      `LanguageModelSession` per call; here each session is named by the
      next unused number, so "fresh" means "never handed out before". */
  datatype Service = Service(nextSession: nat)

  const Initial := Service(0)

  /** What a generation does to the backend, in the order it happens. */
  datatype Effect =
    | CreatedSession(session: nat)
    | CalledBackend(session: nat, prompt: string)

  /** `session.respond(to:)`: the backend's reply to a prompt, a text or a
      thrown error. Its internals are not part of this model. */
  type Backend = string -> Outcome<string>

  /** One call of `generateResponse`: the service afterwards, the effects on
      the backend, and what the call returns or throws. */
  datatype Generation = Generation(service: Service, effects: seq<Effect>, outcome: Outcome<string>)

  /** The 503 abort thrown when the oracle refuses. */
  function Refusal(message: string): Failure
  {
    Abort(ServiceUnavailable, message)
  }

  /** `generateResponse(for:)`, with the availability observed once.
      When the oracle refuses, the call throws a 503 carrying the oracle's
      message for that same state and touches nothing: no session, no
      backend call. Otherwise exactly one new session is opened, the prompt
      goes to the backend unchanged on that session, and the backend's reply,
      text or error, is the call's outcome unchanged. */
  function GenerateResponse(svc: Service, a: ModelAvailability, respond: Backend, prompt: string): (g: Generation)
    ensures !CheckAvailability(a) ==>
              g == Generation(svc, [], Threw(Abort(ServiceUnavailable, AvailabilityMessage(a))))
    ensures CheckAvailability(a) ==>
              && g.effects == [CreatedSession(svc.nextSession), CalledBackend(svc.nextSession, prompt)]
              && g.service.nextSession == svc.nextSession + 1
              && g.outcome == respond(prompt)
  {
    GenerateResponseAsWritten(svc, a, a, respond, prompt)
  }

  /** `generateResponse(for:)` as the source writes it: the guard and the
      refusal message each read `model.availability`, so they may observe
      two different states. */
  function GenerateResponseAsWritten(svc: Service, guardRead: ModelAvailability, messageRead: ModelAvailability,
                                     respond: Backend, prompt: string): (g: Generation)
    ensures !CheckAvailability(guardRead) ==>
              g == Generation(svc, [], Threw(Abort(ServiceUnavailable, AvailabilityMessage(messageRead))))
    ensures CheckAvailability(guardRead) ==>
              && g.effects == [CreatedSession(svc.nextSession), CalledBackend(svc.nextSession, prompt)]
              && g.service == Service(svc.nextSession + 1)
              && g.outcome == respond(prompt)
  {
    if !CheckAvailability(guardRead) then
      Generation(svc, [], Threw(Refusal(AvailabilityMessage(messageRead))))
    else
      var session := svc.nextSession;
      Generation(Service(session + 1), [CreatedSession(session), CalledBackend(session, prompt)], respond(prompt))
  }

  /** When the state does not change between the two reads, the source's
      two-read version and the one-read model are the same function. */
  lemma AsWrittenAgreesWhenStable(svc: Service, a: ModelAvailability, respond: Backend, prompt: string)
    ensures GenerateResponseAsWritten(svc, a, a, respond, prompt) == GenerateResponse(svc, a, respond, prompt)
  {
  }

  /** The two reads can disagree: the model finishes downloading between the
      guard and the message, and the request is refused with a 503 whose
      reason says the model is available. */
  lemma AsWrittenRefusesWithAvailableMessage(svc: Service, respond: Backend, prompt: string)
    ensures GenerateResponseAsWritten(svc, Unavailable(ModelNotReady), Available, respond, prompt).outcome
            == Threw(Abort(ServiceUnavailable, "Model is available"))
  {
  }

  /** With one observation, a refusal always names a state that is in fact
      unavailable: its reason diagnoses to a refusing state. */
  lemma RefusalNamesUnavailableState(svc: Service, a: ModelAvailability, respond: Backend, prompt: string)
    ensures var g := GenerateResponse(svc, a, respond, prompt);
            g.effects == [] ==>
              && g.outcome.Threw? && g.outcome.failure.Abort?
              && g.outcome.failure.reason != AvailableMessage
              && Diagnose(g.outcome.failure.reason).Some?
              && !CheckAvailability(Diagnose(g.outcome.failure.reason).value)
  {
    MessageRoundTrip(a);
  }

  // ---------------------------------------------------------------------
  // The request lifecycle as a state machine:
  //   RECEIVED -> AVAILABILITY_CHECKED -> SESSION_CREATED -> BACKEND_INVOKED
  //            -> SUCCEEDED | FAILED, or AVAILABILITY_CHECKED -> REFUSED.
  // It is an independent account of the same decision; `LifecycleAgrees`
  // connects it to `GenerateResponse`.
  // ---------------------------------------------------------------------

  datatype Phase =
    | Received
    | AvailabilityChecked
    | SessionCreated
    | BackendInvoked
    | Succeeded(text: string)
    | Failed(failure: Failure)
    | Refused(message: string)

  predicate IsTerminal(p: Phase)
  {
    p.Succeeded? || p.Failed? || p.Refused?
  }

  /** Steps left before a terminal phase, at most. */
  function Rank(p: Phase): nat
  {
    match p
    case Received => 4
    case AvailabilityChecked => 3
    case SessionCreated => 2
    case BackendInvoked => 1
    case _ => 0
  }

  /** One transition, given the state the oracle sees and the backend's reply. */
  function Advance(p: Phase, a: ModelAvailability, reply: Outcome<string>): (q: Phase)
    requires !IsTerminal(p)
    ensures Rank(q) < Rank(p)
    ensures q.Refused? ==> p == AvailabilityChecked && !CheckAvailability(a)
    ensures q == SessionCreated ==> CheckAvailability(a)
  {
    match p
    case Received => AvailabilityChecked
    case AvailabilityChecked =>
      if CheckAvailability(a) then SessionCreated else Refused(AvailabilityMessage(a))
    case SessionCreated => BackendInvoked
    case BackendInvoked =>
      match reply
      case Returned(text) => Succeeded(text)
      case Threw(f) => Failed(f)
  }

  /** `path` is a run of the machine: each phase is followed by its
      successor, and only the last phase is terminal. */
  ghost predicate IsRun(path: seq<Phase>, a: ModelAvailability, reply: Outcome<string>)
    decreases |path|
  {
    && |path| >= 1
    && (|path| == 1 ==> IsTerminal(path[0]))
    && (|path| > 1 ==>
          && !IsTerminal(path[0])
          && path[1] == Advance(path[0], a, reply)
          && IsRun(path[1..], a, reply))
  }

  /** The run of the machine from `p`: it starts at `p`, ends in a terminal
      phase, and is never longer than the rank promises. */
  function Lifecycle(p: Phase, a: ModelAvailability, reply: Outcome<string>): (path: seq<Phase>)
    ensures 1 <= |path| <= Rank(p) + 1
    ensures path[0] == p
    ensures IsTerminal(path[|path| - 1])
    ensures IsRun(path, a, reply)
    decreases Rank(p)
  {
    if IsTerminal(p) then [p]
    else [p] + Lifecycle(Advance(p, a, reply), a, reply)
  }

  /** What a terminal phase means to the caller of `generateResponse`. */
  function OutcomeOf(p: Phase): Outcome<string>
    requires IsTerminal(p)
  {
    match p
    case Succeeded(text) => Returned(text)
    case Failed(f) => Threw(f)
    case Refused(message) => Threw(Refusal(message))
  }

  /** A non-terminal phase is followed by the run from its successor. */
  lemma LifecycleUnfold(p: Phase, a: ModelAvailability, reply: Outcome<string>)
    requires !IsTerminal(p)
    ensures Lifecycle(p, a, reply) == [p] + Lifecycle(Advance(p, a, reply), a, reply)
  {
  }

  /** The run from BACKEND_INVOKED: one step to SUCCEEDED or FAILED. */
  lemma RunFromBackend(a: ModelAvailability, reply: Outcome<string>)
    ensures Lifecycle(BackendInvoked, a, reply) == [BackendInvoked, Advance(BackendInvoked, a, reply)]
  {
    LifecycleUnfold(BackendInvoked, a, reply);
  }

  /** The run from SESSION_CREATED. */
  lemma RunFromSession(a: ModelAvailability, reply: Outcome<string>)
    ensures Lifecycle(SessionCreated, a, reply) == [SessionCreated, BackendInvoked, Advance(BackendInvoked, a, reply)]
  {
    LifecycleUnfold(SessionCreated, a, reply);
    RunFromBackend(a, reply);
  }

  /** The run from AVAILABILITY_CHECKED when the oracle admits the request. */
  lemma RunFromCheckedWhenAvailable(a: ModelAvailability, reply: Outcome<string>)
    requires CheckAvailability(a)
    ensures Lifecycle(AvailabilityChecked, a, reply)
            == [AvailabilityChecked, SessionCreated, BackendInvoked, Advance(BackendInvoked, a, reply)]
  {
    LifecycleUnfold(AvailabilityChecked, a, reply);
    RunFromSession(a, reply);
  }

  /** The run from RECEIVED when the oracle admits the request. */
  lemma LifecycleWhenAvailable(a: ModelAvailability, reply: Outcome<string>)
    requires CheckAvailability(a)
    ensures Lifecycle(Received, a, reply)
            == [Received, AvailabilityChecked, SessionCreated, BackendInvoked, Advance(BackendInvoked, a, reply)]
  {
    LifecycleUnfold(Received, a, reply);
    RunFromCheckedWhenAvailable(a, reply);
  }

  /** The run from RECEIVED when the oracle refuses the request. */
  lemma {:induction false} LifecycleWhenUnavailable(a: ModelAvailability, reply: Outcome<string>)
    requires !CheckAvailability(a)
    ensures Lifecycle(Received, a, reply)
            == [Received, AvailabilityChecked, Refused(AvailabilityMessage(a))]
  {
    var last := Refused(AvailabilityMessage(a));
    assert Lifecycle(last, a, reply) == [last];
    assert Lifecycle(AvailabilityChecked, a, reply) == [AvailabilityChecked, last];
  }

  /** `GenerateResponse` follows the lifecycle: it ends where the machine
      ends, it opens a session exactly when the machine passes through
      SESSION_CREATED, and calls the backend exactly when the machine passes
      through BACKEND_INVOKED. */
  lemma {:induction false} LifecycleAgrees(svc: Service, a: ModelAvailability, respond: Backend, prompt: string)
    ensures var path := Lifecycle(Received, a, respond(prompt));
            var g := GenerateResponse(svc, a, respond, prompt);
            && OutcomeOf(path[|path| - 1]) == g.outcome
            && (SessionCreated in path <==> CreatedSession(svc.nextSession) in g.effects)
            && (BackendInvoked in path <==> CalledBackend(svc.nextSession, prompt) in g.effects)
  {
    if CheckAvailability(a) {
      LifecycleWhenAvailable(a, respond(prompt));
    } else {
      LifecycleWhenUnavailable(a, respond(prompt));
    }
  }
}

=== FILE: routes.dfy ===
/** The three route closures of the server (`POST /inference`,
    `GET /health`, `GET /status`), each composed with the error middleware
    that wraps every route, and the end-to-end guarantees about status codes
    and body shapes that follow. */
module Routes {
  import opened Http
  import opened Availability
  import opened InferenceService
  import opened ErrorMiddleware

  const ResponseKey := "response"
  const StatusKey := "status"
  const AvailableKey := "available"
  const MessageKey := "message"

  /** A request as it reaches a route. For `/inference`, `decoded` is the
      result of decoding the JSON body: the prompt, or the error the decoder
      throws. */
  datatype Request =
    | PostInference(decoded: Outcome<string>)
    | GetHealth
    | GetStatus

  /** What the outside world is while one request is handled: the model's
      availability and the backend's behaviour. */
  datatype World = World(availability: ModelAvailability, respond: Backend)

  /** A route's result before the middleware: the service afterwards, the
      effects on the backend, and the response or the thrown error. */
  datatype Handled = Handled(service: Service, effects: seq<Effect>, outcome: Outcome<Response>)

  /** A request's result on the wire. */
  datatype Served = Served(service: Service, effects: seq<Effect>, response: Response)

  /** Swift's `String(_: Bool)`. */
  function BoolText(b: bool): (t: string)
    ensures t == "true" || t == "false"
    ensures t == "true" <==> b
  {
    if b then "true" else "false"
  }

  /** The `/inference` closure: decode the body, generate, wrap the text.
      A body that does not decode throws before the service is reached, so
      no session is opened and nothing is sent to the backend. A decoded
      prompt goes to `generateResponse` unchanged; its text comes back as
      `{"response": text}` with 200, and whatever it throws is rethrown
      unchanged. */
  function InferenceRoute(svc: Service, decoded: Outcome<string>, w: World): (h: Handled)
    ensures decoded.Threw? ==> h == Handled(svc, [], Threw(decoded.failure))
    ensures decoded.Returned? ==>
              var g := GenerateResponse(svc, w.availability, w.respond, decoded.value);
              && h.service == g.service
              && h.effects == g.effects
              && (g.outcome.Returned? <==> h.outcome.Returned?)
              && (g.outcome.Returned? ==> h.outcome.value == Response(Ok, map[ResponseKey := g.outcome.value]))
              && (g.outcome.Threw? ==> h.outcome == Threw(g.outcome.failure))
  {
    match decoded
    case Threw(f) => Handled(svc, [], Threw(f))
    case Returned(prompt) =>
      var g := GenerateResponse(svc, w.availability, w.respond, prompt);
      match g.outcome
      case Returned(text) => Handled(g.service, g.effects, Returned(Response(Ok, map[ResponseKey := text])))
      case Threw(f) => Handled(g.service, g.effects, Threw(f))
  }

  /** The `/health` closure: it takes nothing from the request or the
      service, never throws, and answers 200 with the single field
      `"status": "ok"`. */
  function HealthRoute(): (r: Outcome<Response>)
    ensures r.Returned? && r.value.status == Ok
    ensures r.value.body.Keys == {StatusKey} && r.value.body[StatusKey] == "ok"
  {
    Returned(Response(Ok, map[StatusKey := "ok"]))
  }

  /** The `/status` closure, with the availability observed once: it never
      throws, and its two fields agree with the oracle and with each other. */
  function StatusRoute(a: ModelAvailability): (r: Outcome<Response>)
    ensures r.Returned? && r.value.status == Ok
    ensures r.value.body.Keys == {AvailableKey, MessageKey}
    ensures r.value.body[AvailableKey] == "true" <==> CheckAvailability(a)
    ensures r.value.body[AvailableKey] == "false" <==> !CheckAvailability(a)
    ensures r.value.body[MessageKey] == AvailabilityMessage(a)
    ensures r.value.body[AvailableKey] == "true" <==> r.value.body[MessageKey] == AvailableMessage
  {
    StatusRouteAsWritten(a, a)
  }

  /** The `/status` closure as the source writes it: `checkAvailability()` and
      `getAvailabilityMessage()` each read `model.availability`. */
  function StatusRouteAsWritten(flagRead: ModelAvailability, messageRead: ModelAvailability): (r: Outcome<Response>)
    ensures r.Returned? && r.value.status == Ok
    ensures r.value.body.Keys == {AvailableKey, MessageKey}
    ensures r.value.body[AvailableKey] == BoolText(CheckAvailability(flagRead))
    ensures r.value.body[AvailableKey] == "true" <==> CheckAvailability(flagRead)
    ensures r.value.body[MessageKey] == AvailabilityMessage(messageRead)
  {
    Returned(Response(Ok, map[AvailableKey := BoolText(CheckAvailability(flagRead)),
                              MessageKey := AvailabilityMessage(messageRead)]))
  }

  /** The two reads can disagree: `/status` reports "false" together with
      the message that the model is available. */
  lemma StatusAsWrittenCanContradictItself()
    ensures var r := StatusRouteAsWritten(Unavailable(ModelNotReady), Available).value;
            r.body[AvailableKey] == "false" && r.body[MessageKey] == "Model is available"
  {
  }

  /** The route a request is dispatched to. `/health` and `/status` never
      throw and never touch the service or the backend; only `/inference`
      can throw, and only its result depends on the backend. */
  function Route(svc: Service, req: Request, w: World): (h: Handled)
    ensures !req.PostInference? ==> h.service == svc && h.effects == [] && h.outcome.Returned?
    ensures req.GetHealth? ==> h == Handled(svc, [], HealthRoute())
    ensures req.GetStatus? ==> h.outcome == StatusRoute(w.availability)
    ensures req.PostInference? ==> h == InferenceRoute(svc, req.decoded, w)
  {
    match req
    case PostInference(decoded) => InferenceRoute(svc, decoded, w)
    case GetHealth => Handled(svc, [], HealthRoute())
    case GetStatus => Handled(svc, [], StatusRoute(w.availability))
  }

  /** A request handled by its route with `JSONErrorMiddleware` around it.
      Only `/inference` with a decoded prompt ever touches the service or
      the backend, and every response has one of the four body shapes. */
  function Endpoint(svc: Service, req: Request, w: World): (s: Served)
    ensures !(req.PostInference? && req.decoded.Returned?) ==> s.service == svc && s.effects == []
    ensures SentShape(s.response)
  {
    var h := Route(svc, req, w);
    Served(h.service, h.effects, Respond(h.outcome))
  }

  /** The four body shapes the routes send: `{"response": s}`,
      `{"error": s}`, `{"status": "ok"}` and
      `{"available": "true"|"false", "message": s}`. */
  predicate SentShape(r: Response)
  {
    || r.body.Keys == {ResponseKey}
    || r.body.Keys == {ErrorKey}
    || r.body == map[StatusKey := "ok"]
    || (r.body.Keys == {AvailableKey, MessageKey} && r.body[AvailableKey] in {"true", "false"})
  }

  /** `POST /inference` with a decoded prompt, case by case: 503 with the
      oracle's message and no backend contact when unavailable; 200 with the
      backend's text unchanged; an abort from the backend keeps its status
      and reason; any other backend error is a 500 with the fixed text. */
  lemma InferenceEndToEnd(svc: Service, prompt: string, w: World)
    ensures var s := Endpoint(svc, PostInference(Returned(prompt)), w);
            var reply := w.respond(prompt);
            && (!CheckAvailability(w.availability) ==>
                  s == Served(svc, [], Response(ServiceUnavailable, map[ErrorKey := AvailabilityMessage(w.availability)])))
            && (CheckAvailability(w.availability) ==>
                  && s.effects == [CreatedSession(svc.nextSession), CalledBackend(svc.nextSession, prompt)]
                  && (reply.Returned? ==> s.response == Response(Ok, map[ResponseKey := reply.value]))
                  && (reply.Threw? && reply.failure.Abort? ==>
                        s.response == Response(reply.failure.status, map[ErrorKey := reply.failure.reason]))
                  && (reply.Threw? && reply.failure.Other? ==>
                        s.response == Response(InternalServerError, map[ErrorKey := InternalErrorMessage])))
  {
  }

  /** Status codes of `POST /inference` when the backend throws no abort of
      its own: only 200, 500 and 503 occur; 503 exactly when the oracle
      refuses; 200 exactly when the model is available and the backend
      answers. */
  lemma InferenceStatusCodes(svc: Service, prompt: string, w: World)
    requires !(w.respond(prompt).Threw? && w.respond(prompt).failure.Abort?)
    ensures var st := Endpoint(svc, PostInference(Returned(prompt)), w).response.status;
            && st in {Ok, InternalServerError, ServiceUnavailable}
            && (st == ServiceUnavailable <==> !CheckAvailability(w.availability))
            && (st == Ok <==> CheckAvailability(w.availability) && w.respond(prompt).Returned?)
  {
  }

  /** A body that does not decode never reaches the service: the decoder's
      error is reported by the middleware and the backend is untouched. */
  lemma DecodeFailureNeverGenerates(svc: Service, f: Failure, w: World)
    ensures Endpoint(svc, PostInference(Threw(f)), w) == Served(svc, [], Respond(Threw(f)))
  {
  }

  /** For the same state, `/status` and a refused `/inference` tell the
      same story: the 503 reason is the `/status` message, and `/status`
      says "false". When the model is available, `/status` says "true". */
  lemma StatusAgreesWithInference(svc: Service, prompt: string, w: World)
    ensures var inference := Endpoint(svc, PostInference(Returned(prompt)), w).response;
            var status := Endpoint(svc, GetStatus, w).response;
            && (!CheckAvailability(w.availability) ==>
                  && inference.status == ServiceUnavailable
                  && status.body[AvailableKey] == "false"
                  && inference.body[ErrorKey] == status.body[MessageKey])
            && (CheckAvailability(w.availability) ==> status.body[AvailableKey] == "true")
  {
  }

  /** `/health` answers 200 `{"status": "ok"}` whatever the service and the
      model are doing. */
  lemma HealthIgnoresState(svc: Service, w: World)
    ensures Endpoint(svc, GetHealth, w) == Served(svc, [], Response(Ok, map[StatusKey := "ok"]))
  {
  }

  /** Worked cases of the three endpoints. */
  lemma WorkedCases(svc: Service, respond: Backend)
    ensures respond("Hello") == Returned("Hi there!") ==>
              Endpoint(svc, PostInference(Returned("Hello")), World(Available, respond)).response
              == Response(200, map["response" := "Hi there!"])
    ensures var notReady := World(Unavailable(ModelNotReady), respond);
            && Endpoint(svc, PostInference(Returned("Hello")), notReady).response
               == Response(503, map["error" := "Model is downloading or not ready yet"])
            && Endpoint(svc, GetStatus, notReady).response
               == Response(200, map["available" := "false", "message" := "Model is downloading or not ready yet"])
    ensures (exists d :: respond("Hello") == Threw(Other(d))) ==>
              Endpoint(svc, PostInference(Returned("Hello")), World(Available, respond)).response
              == Response(500, map["error" := "Internal server error"])
  {
  }
}

=== FILE: serving.dfy ===
/** The server over time, with requests handled strictly one after another
    against one service, and the backend effects of the whole run collected
    in a log. This sequential order is a modelling choice, not a guarantee
    of the source: `InferenceService` is an actor, and actors are reentrant
    at every `await`, so while one generation waits on the backend another
    may start. What is proved here survives that interleaving, because
    requests share nothing but the session allocation, and between opening
    a session and starting the backend call on it there is no suspension
    point. */
module Serving {
  import opened Http
  import opened Availability
  import opened InferenceService
  import opened Routes

  /** One request together with the world at the moment it is handled. */
  datatype Arrival = Arrival(request: Request, world: World)

  datatype Run = Run(service: Service, responses: seq<Response>, log: seq<Effect>)

  /** Every session named in `log` lies in `[lo, hi)`. */
  ghost predicate SessionsWithin(log: seq<Effect>, lo: nat, hi: nat)
  {
    forall k :: 0 <= k < |log| ==> lo <= log[k].session < hi
  }

  /** No session is opened twice: requests never share a session. */
  ghost predicate SessionsFresh(log: seq<Effect>)
  {
    forall i, j :: 0 <= i < j < |log| && log[i].CreatedSession? && log[j].CreatedSession? ==>
      log[i].session != log[j].session
  }

  /** Every backend call runs on the session opened immediately before it. */
  ghost predicate CallsOnOwnSession(log: seq<Effect>)
  {
    forall k :: 0 <= k < |log| && log[k].CalledBackend? ==>
      0 < k && log[k - 1] == CreatedSession(log[k].session)
  }

  /** Every session opened is used at once: the backend call on it comes
      immediately after. */
  ghost predicate SessionsUsed(log: seq<Effect>)
  {
    forall k :: 0 <= k < |log| && log[k].CreatedSession? ==>
      k + 1 < |log| && log[k + 1].CalledBackend? && log[k + 1].session == log[k].session
  }

  /** Number of sessions the log opens. */
  function SessionCount(log: seq<Effect>): nat
  {
    if log == [] then 0
    else (if log[0].CreatedSession? then 1 else 0) + SessionCount(log[1..])
  }

  /** Handles the requests one after another, in arrival order. The i-th
      response is exactly what the i-th request would get on its own: no
      state carries from one request to the next except the session
      counter, which no response depends on. Sessions opened in the run are
      fresh, never reused, each backend call uses its own, and each one
      opened is used by the call that follows it. */
  function ServeInOrder(svc: Service, arrivals: seq<Arrival>): (r: Run)
    ensures |r.responses| == |arrivals|
    ensures forall i :: 0 <= i < |arrivals| ==>
              r.responses[i] == Endpoint(Initial, arrivals[i].request, arrivals[i].world).response
    ensures r.service.nextSession == svc.nextSession + SessionCount(r.log)
    ensures SessionsWithin(r.log, svc.nextSession, r.service.nextSession)
    ensures SessionsFresh(r.log)
    ensures CallsOnOwnSession(r.log)
    ensures SessionsUsed(r.log)
    decreases |arrivals|
  {
    if arrivals == [] then Run(svc, [], [])
    else
      var first := Endpoint(svc, arrivals[0].request, arrivals[0].world);
      var rest := ServeInOrder(first.service, arrivals[1..]);
      EndpointStep(svc, arrivals[0].request, arrivals[0].world);
      AppendLog(first.effects, rest.log, svc.nextSession, first.service.nextSession, rest.service.nextSession);
      AppendLogUsed(first.effects, rest.log, svc.nextSession, first.service.nextSession);
      Run(rest.service, [first.response] + rest.responses, first.effects + rest.log)
  }

  /** The effects of one request on a service whose next session is `lo`
      and is `mid` afterwards: nothing at all, or the next session is opened
      and the backend is called on it. */
  ghost predicate StepEffects(step: seq<Effect>, lo: nat, mid: nat)
  {
    || (step == [] && mid == lo)
    || (&& |step| == 2
        && step[0] == CreatedSession(lo)
        && step[1].CalledBackend? && step[1].session == lo
        && mid == lo + 1)
  }

  /** What one request does to the service and the log: either nothing, or
      it opens the next session and calls the backend on it. The response
      does not depend on the service it was handled by. */
  lemma EndpointStep(svc: Service, req: Request, w: World)
    ensures var s := Endpoint(svc, req, w);
            && StepEffects(s.effects, svc.nextSession, s.service.nextSession)
            && s.response == Endpoint(Initial, req, w).response
  {
  }

  /** Prepending one request's effects to the rest of the run keeps the log's
      invariants, given that its session precedes every later one. */
  lemma {:induction false} AppendLog(step: seq<Effect>, later: seq<Effect>, lo: nat, mid: nat, hi: nat)
    requires StepEffects(step, lo, mid)
    requires hi == mid + SessionCount(later)
    requires SessionsWithin(later, mid, hi)
    requires SessionsFresh(later)
    requires CallsOnOwnSession(later)
    ensures hi == lo + SessionCount(step + later)
    ensures SessionsWithin(step + later, lo, hi)
    ensures SessionsFresh(step + later)
    ensures CallsOnOwnSession(step + later)
  {
    var all := step + later;
    if step != [] {
      assert all[1..] == [step[1]] + later;
      assert all[1..][1..] == later;
      assert SessionCount(all) == 1 + SessionCount(all[1..]);
      assert SessionCount(all[1..]) == SessionCount(later);
      forall i, j | 0 <= i < j < |all| && all[i].CreatedSession? && all[j].CreatedSession?
        ensures all[i].session != all[j].session
      {
        if i >= 2 {
          assert all[i] == later[i - 2] && all[j] == later[j - 2];
        } else {
          assert i == 0 && j >= 2;
          assert all[j] == later[j - 2];
        }
      }
      assert later != [] ==> !later[0].CalledBackend?;
      forall k | 0 <= k < |all| && all[k].CalledBackend?
        ensures 0 < k && all[k - 1] == CreatedSession(all[k].session)
      {
        if k >= 2 {
          assert all[k] == later[k - 2];
        }
        if k >= 3 {
          assert all[k - 1] == later[k - 3];
        }
      }
    } else {
      assert all == later;
    }
  }

  /** Prepending one request's effects keeps every opened session used by
      the call that follows it. */
  lemma {:induction false} AppendLogUsed(step: seq<Effect>, later: seq<Effect>, lo: nat, mid: nat)
    requires StepEffects(step, lo, mid)
    requires SessionsUsed(later)
    ensures SessionsUsed(step + later)
  {
    var all := step + later;
    if step != [] {
      forall k | 0 <= k < |all| && all[k].CreatedSession?
        ensures k + 1 < |all| && all[k + 1].CalledBackend? && all[k + 1].session == all[k].session
      {
        if k >= 2 {
          assert all[k] == later[k - 2];
          assert all[k + 1] == later[k - 1];
        }
      }
    } else {
      assert all == later;
    }
  }

  /** The number of sessions a run opens is the number of `/inference`
      requests that reached an available model. */
  lemma {:induction false} SessionsMatchAdmittedRequests(svc: Service, arrivals: seq<Arrival>)
    ensures SessionCount(ServeInOrder(svc, arrivals).log) == Admitted(arrivals)
    decreases |arrivals|
  {
    if arrivals != [] {
      var first := Endpoint(svc, arrivals[0].request, arrivals[0].world);
      var rest := ServeInOrder(first.service, arrivals[1..]);
      SessionsMatchAdmittedRequests(first.service, arrivals[1..]);
      SessionCountAppend(first.effects, rest.log);
      assert ServeInOrder(svc, arrivals).log == first.effects + rest.log;
      var r := arrivals[0].request;
      if r.PostInference? && r.decoded.Returned? && CheckAvailability(arrivals[0].world.availability) {
        assert SessionCount(first.effects) == 1 by {
          assert first.effects[1..][1..] == [];
        }
      } else {
        assert first.effects == [];
      }
    }
  }

  /** Requests that reach the backend: decoded `/inference` requests that
      find the model available. */
  function Admitted(arrivals: seq<Arrival>): nat
  {
    if arrivals == [] then 0
    else
      var r := arrivals[0].request;
      (if r.PostInference? && r.decoded.Returned? && CheckAvailability(arrivals[0].world.availability) then 1 else 0)
      + Admitted(arrivals[1..])
  }

  /** Session counting distributes over concatenation. */
  lemma {:induction false} SessionCountAppend(a: seq<Effect>, b: seq<Effect>)
    ensures SessionCount(a + b) == SessionCount(a) + SessionCount(b)
    decreases |a|
  {
    if a != [] {
      assert (a + b)[1..] == a[1..] + b;
      SessionCountAppend(a[1..], b);
    } else {
      assert a + b == b;
    }
  }
}
